=== FILE: README.md ===
# aldryn-pypi-stats in Dafny

A model of the logic behind the aldryn-pypi-stats plugin. The plugin shows PyPI
download statistics for a package on a django CMS page. The model covers four parts:

- **Cache-or-fetch policy** (`PyPIStatsRepository.get_data`). The package's
  JSON document is read from a shared cache or fetched from
  `https://pypi.python.org/pypi/<name>/json`:
  - a forced refresh skips the cache;
  - a falsy cached value counts as a miss;
  - a reply other than 200 becomes `None`;
  - every fetch writes its result back, for twice the base time-to-live when forced.

  `Models.Cache` is the store, a class whose `entries` map its methods update.
  `Models.GetData` is the method. `Models.Refresh` is the function that
  specifies it.
- **Statistic derivation** (`_fetch_statistics`, `get_downloads`, `get_digits`,
  `__str__`).
  - The period counter is `info.downloads.<period>`.
  - The release total sums `releases.*[].downloads` in two nested loops, which
    `Stats.FetchStatistics` keeps as nested `while` loops.
  - The base count is then added, and the count is split into its decimal digits.
  - The Python behaviour this code depends on is written out in `PyJson`: truthiness, `d[key]`,
    `d.values()`, `for x in y` and `+`, with the exceptions each can raise. Only
    `KeyError` and `AttributeError` are caught by the source's `try` blocks, so a
    `TypeError` escapes, as it does in the source.
- **Decimal text** (`Decimal`). This module covers `str(n)`, `int(s)`, `list(s)`
  and `"".join`, with the round trip `int(str(n)) == n`.
- **Configuration form** (`aldryn_config.py`). It has two parts:
  - the positive-integer `clean` of the cache-duration field;
  - `to_settings`, which writes that value into the settings dictionary in place.

Inputs the model cannot compute are parameters:
- the reply to the HTTP request (`Models.Response`, a status and the parsed body);
- the cache-key function of the primary key (`cacheKey`);
- the configured base duration (`cacheDuration`);
- the parent field's `clean` (`parentClean`).

Python's `None` is `PyJson.Null`. The cache's "no value" and a JSON `null` body
are the same value, as they are in Python.

Three behaviours of the code that a reader might not expect:
- **A missing period counter raises.** For any period but `all_time`, the period statistic is then `None`, and
  `None + base_count` raises `TypeError` (`Models.MissingPeriodCounterRaises`).
- **Bad release data is not always 0.** A `KeyError` or `AttributeError` inside
  either `try` block is swallowed:
  - a `releases` value that is not a dict makes `.values()` raise `AttributeError`,
    and the release statistic is 0;
  - a variant without `downloads` raises `KeyError` part-way through the loops,
    and the sum so far is kept (`Stats.PartialSumRetained`).

  A `TypeError` is not caught and escapes. It arises from any non-dict where a
  variant, `info` or `info.downloads` should be a dict (for the payload, any
  truthy non-dict), from a release that is not iterable (a number, a boolean or
  `None`), and from a counter that is neither an integer nor a boolean (a boolean
  adds as 0 or 1).
- **Cache keys can collide.** The key comes from Python's `hash` of `(pk,)`, which
  does not promise distinct keys for distinct packages. The model takes the key
  function as a parameter and claims nothing about collisions.

## Model

| member | source | states |
|---|---|---|
| Models.GetJsonUrl | aldryn_pypi_stats/models.py:38-40 | The URL is the PyPI prefix, then the package name unchanged, then `/json`. |
| Models.GetJsonUrlInjective | aldryn_pypi_stats/models.py:38-40 | Distinct package names give distinct JSON URLs. |
| Models.Refresh | aldryn_pypi_stats/models.py:52-76 | A fetch happens exactly when the call is forced, or the key is absent, or its cached value is falsy. A hit returns the cached value and leaves the store unchanged. A fetch requests the package URL and yields the body on status 200 and `None` otherwise. A fetch stores that value under the key with TTL `2 * duration` when forced and `duration` otherwise. No other key changes and no key is removed. |
| Models.ForcedRefreshIgnoresCache | aldryn_pypi_stats/models.py:59-60 | Whatever the store holds, a forced call fetches the same URL, returns the same payload and stores the same entry. |
| Models.RefreshThenHit | aldryn_pypi_stats/models.py:62-76 | After a call that produced a truthy payload, the next unforced call returns that payload, fetches nothing and leaves the store as it was. |
| PyJson.Truthy | aldryn_pypi_stats/models.py:63 | Python truthiness of a JSON value: `None`, `False`, `0`, `""`, `[]` and `{}` are false and everything else is true. It decides the cache miss at models.py:63 and the empty-payload test at models.py:125. |
| Models.Cache.Get | aldryn_pypi_stats/models.py:62 | `cache.get(key, default)` returns the stored value when the key is present and the default otherwise. |
| Models.Cache.Set | aldryn_pypi_stats/models.py:75 | `cache.set(key, value, ttl)` stores that entry under the key and changes no other key. |
| Models.GetData | aldryn_pypi_stats/models.py:52-76 | The imperative `get_data` over the cache object: the returned payload, the URL fetched, if any, and the cache's new entries are exactly those `Refresh` gives for the old entries. |
| Models.NoPackage | aldryn_pypi_stats/models.py:144 | The plugin has no package, or its package name is empty: `get_downloads` returns 0 without fetching. |
| Models.DownloadsFrom | aldryn_pypi_stats/models.py:147-154 | The count from a payload is the statistic plus the base count. The only exception it raises is `TypeError`. With `all_time` and a falsy payload it is the base count. |
| Models.GetDownloads | aldryn_pypi_stats/models.py:143-154 | With no package, or a package with an empty name, the result is 0 and the cache is untouched. Otherwise the cache changes as an unforced `Refresh` does, and the result is the plugin's statistic on the returned payload plus the base count, or the exception that raised. |
| Models.Digits | aldryn_pypi_stats/models.py:156-158 | The result is a list of one-character strings. They join to the decimal rendering of the count and read back as the count. For a non-negative count every element is a digit. |
| Models.GetDigits | aldryn_pypi_stats/models.py:156-158 | The result is the digits of the count `GetDownloads` computes, with the same cache effect. Without a package it is `["0"]`. An exception from the count propagates. |
| Models.ChoiceLabel | aldryn_pypi_stats/models.py:161 | A label is found exactly when some choice has the period's code. The label is that of the first choice with the code, as `next` returns. With no matching choice the lookup raises `StopIteration`. |
| Models.LowerChar | aldryn_pypi_stats/models.py:163 | An ASCII capital becomes its small letter (code point plus 32); every other character is kept; no capital remains. |
| Models.Lower | aldryn_pypi_stats/models.py:163 | Lower-casing keeps the length and lower-cases each character in place. |
| Models.Describe | aldryn_pypi_stats/models.py:160-165 | The description exists exactly when the period is one of `all_time`, `last_month`, `last_week` and `last_day`. Any other period raises `StopIteration`. |
| Models.AllTimeExample | aldryn_pypi_stats/models.py:134-158 | For one release with variants of 3 and 2 downloads, the all-time statistic is 5. Adding base count 10 gives 15, and its digits are `["1", "5"]`. |
| Stats.PeriodLookup | aldryn_pypi_stats/models.py:129-130 | The raw lookup `data['info']['downloads'][period]` raises only `KeyError` or `TypeError`, never `AttributeError`. A payload that is not a dict raises `TypeError`. |
| Stats.PeriodStat | aldryn_pypi_stats/models.py:128-132 | A successful lookup of `data['info']['downloads'][period]` is the result. A missing key or attribute along the way gives `None`. A `TypeError` from the lookup escapes unchanged, and no other exception escapes. |
| Stats.PeriodStatReadsInfo | aldryn_pypi_stats/models.py:128-130 | When `info.downloads.<period>` is present, the period statistic is that value, whatever `releases` holds. |
| Stats.Abort | aldryn_pypi_stats/models.py:139-140 | Leaving the loops on an exception keeps the running total exactly when the exception is `KeyError` or `AttributeError`. Any other exception fails the loops with that same exception. |
| Stats.FetchStatistics | aldryn_pypi_stats/models.py:120-141 | The nested release/variant loops, with early exit, compute exactly the `(time_period_stats, release_stats)` pair or exception that `Statistics` defines for the payload. |
| Stats.SumVariants | aldryn_pypi_stats/models.py:137-140 | The inner loop fails with no exception other than `TypeError`. |
| Stats.SumReleases | aldryn_pypi_stats/models.py:136-140 | The outer loop fails with no exception other than `TypeError`. |
| Stats.ReleaseStats | aldryn_pypi_stats/models.py:134-141 | The release statistic is an integer unless a `TypeError` escapes; no other exception leaves the `try` block. |
| Stats.Statistics | aldryn_pypi_stats/models.py:120-141 | Computing the pair `(time_period_stats, release_stats)` raises no exception other than `TypeError`. |
| Stats.SumVariantsComplete | aldryn_pypi_stats/models.py:137-138 | When every variant has an integer `downloads`, the inner loop adds the sum of all their counters to the running total. |
| Stats.SumReleasesComplete | aldryn_pypi_stats/models.py:136-138 | When every release is a list of such variants, the outer loop adds the sum over all releases and variants. |
| Stats.SumVariantsStopsAtMissing | aldryn_pypi_stats/models.py:137-140 | A variant without `downloads` stops the inner loop with the sum of the variants before it. |
| Stats.SumReleasesPrefix | aldryn_pypi_stats/models.py:136-138 | Complete releases at the front can be summed first; the loop then continues from that total. |
| Stats.AllTimeIsReleaseTotal | aldryn_pypi_stats/models.py:134-140 | With all counters present, the release statistic equals the sum of `downloads` over every variant of every release. |
| Stats.PartialSumRetained | aldryn_pypi_stats/models.py:134-141 | Suppose variant `k` of release `i` lacks `downloads` and everything before it is counted. Then the release statistic is the sum of the counters before it: the `KeyError` is swallowed and the partial sum kept. |
| Stats.SumReleasesStopsAtMissing | aldryn_pypi_stats/models.py:136-140 | Suppose the releases before release `i` are complete and variant `k` of release `i` lacks `downloads`. Then the outer loop stops with the sum of everything counted before that variant. |
| Stats.SumVariantsFailsAtBad | aldryn_pypi_stats/models.py:137-140 | A variant that is not a dict, or whose counter is neither an integer nor a boolean, fails the inner loop with `TypeError` once the variants before it are counted. |
| Stats.FailedIsReleaseStats | aldryn_pypi_stats/models.py:134-141 | An exception that failed the loops leaves the `try` block as the release statistic's exception. |
| Stats.NonIterableReleaseRaises | aldryn_pypi_stats/models.py:136-140 | A release that is a number, a boolean or `None`, after complete releases, makes the release statistic raise `TypeError`: `for variation in release` fails and the `except` does not catch it. |
| Stats.BadCounterRaises | aldryn_pypi_stats/models.py:136-140 | A variant that is not a dict, or whose counter is neither an integer nor a boolean, reached after complete releases and counted variants, makes the release statistic raise `TypeError`. |
| Stats.ReleaseStopsLoop | aldryn_pypi_stats/models.py:136-140 | A caught exception in a release's variants ends the outer loop too, with the total reached in the inner loop. |
| Stats.StoppedIsReleaseStats | aldryn_pypi_stats/models.py:134-141 | The total the loops stopped with is the release statistic that the `try` block leaves. |
| Stats.NoDataIsZero | aldryn_pypi_stats/models.py:122-141 | A falsy payload gives `(None, 0)`. A dict payload without a `releases` dict gives a release statistic of 0. |
| Models.MissingPeriodCounterRaises | aldryn_pypi_stats/models.py:126-154 | For a period other than `all_time`, a falsy payload or a missing `info`, `downloads` or period key makes the count raise `TypeError`. |
| Stats.Downloads | aldryn_pypi_stats/models.py:148-154 | For `all_time` the count is the release total plus the base count. For another period an integer counter is added to the base count and a boolean counter adds 0 or 1. A missing counter (`None`), or a string, list or dict counter, raises `TypeError`. |
| PyJson.Subscript | aldryn_pypi_stats/models.py:130 | `x[key]` raises `KeyError` exactly on a dict without that key and `TypeError` exactly on a non-dict. No other exception arises. A success returns a value stored under `key`; with distinct keys, the value stored under it. |
| PyJson.Values | aldryn_pypi_stats/models.py:136 | `.values()` succeeds exactly on a dict and returns its values in insertion order. On anything else it raises `AttributeError`. |
| PyJson.Iter | aldryn_pypi_stats/models.py:137 | Iteration fails, with `TypeError`, exactly on `None`, booleans and integers. A list yields its items. A dict yields one element per key and a string one per character. |
| PyJson.IterElements | aldryn_pypi_stats/models.py:137 | Iterating a dict yields its keys in insertion order. Iterating a string yields its one-character strings in order. |
| PyJson.AddInt | aldryn_pypi_stats/models.py:138 | Adding an integer succeeds exactly for an int or a bool operand, with the arithmetic sum. Anything else raises `TypeError`. |
| Decimal.IntToString | aldryn_pypi_stats/models.py:158 | `str(n)` is non-empty and starts with `-` exactly for negative `n`. The rest is one or more digits, with no leading zero; `str(0)` is exactly `"0"`. |
| Decimal.IntRoundTrip | aldryn_pypi_stats/models.py:158 | Parsing `str(n)` gives back `n`. |
| Decimal.IntToStringInjective | aldryn_pypi_stats/models.py:158 | Distinct counts render to distinct strings. |
| Decimal.Explode | aldryn_pypi_stats/models.py:158 | `list(s)` has one one-character string per character of `s`, and they join back to `s`. |
| Decimal.ParseInt | aldryn_config.py:8 | `int(s)` succeeds exactly on an optional `+` or `-` followed by one or more digits; every other text is rejected, as Python's `ValueError`. A `-` negates the digits' value and a `+` keeps it. |
| AldrynConfig.ToInt | aldryn_config.py:8 | `int(value)` is the integer itself for an integer, fails for `None`, and for text is `ParseInt` of the text. |
| AldrynConfig.Clean | aldryn_config.py:5-12 | An error from the parent `clean` propagates unchanged. Otherwise the parent's value is accepted, unchanged, exactly when it converts to an integer greater than 0. Every other value is rejected with "Please provide a positive integer". |
| AldrynConfig.CleanAcceptsPositiveDecimal | aldryn_config.py:5-12 | A number written in decimal is accepted exactly when it is positive. |
| AldrynConfig.ToSettings | aldryn_config.py:19-22 | `ALDRYN_PYPI_STATS_CACHE_DURATION` is set to `data['cache_duration']`, or `''` when that key is absent. Every other setting is unchanged. The same dictionary object is returned. |

## Left out

- The HTTP request, `requests.get` and `r.json()`: the reply is a parameter carrying a status and an already-parsed body. Network failures and unparsable bodies are not modelled; the code does not handle them either.
- Cache expiry and eviction: the store is a map, and an expired entry is an absent one. Concurrent access and last-writer-wins between processes are not modelled.
- `get_cache_key` (`aldryn_pypi_stats/utils.py`): it formats Python's built-in `hash` of `(pk,)`, which cannot be computed here. It is a function parameter of the primary key, so the model proves nothing about key collisions.
- The log lines written on a natural or forced refresh.
- The periodic refresh task (`aldryn_pypi_stats/tasks.py`): a loop of forced `get_data` calls scheduled by Celery. That task reads the setting `ALDRYN_GITHUB_STATS_CACHE_DURATION`, while the models read `ALDRYN_PYPI_STATS_CACHE_DURATION`.
- `CACHE_DURATION`: it is an integer parameter. A non-integer setting is not followed into the TTL arithmetic. One example is the `''` that `to_settings` writes when the form has no `cache_duration`.
- Stats.SumReleases: the model visits `data['releases'].values()` in document (insertion) order, which Python guarantees from 3.7 on. On older Pythons, Python 2 included, a dict's values come in hash order, so the partial sum kept when a variant lacks `downloads` (`Stats.PartialSumRetained`) can differ; a complete release total does not depend on the order.
- Floating-point JSON numbers: `PyJson.Json` has integers only, so float counters and float arithmetic are not modelled.
- Dicts with repeated keys: `PyJson.Json` represents a dict as a list of entries, and an `Object` with a repeated key is outside the modelled domain. `json.loads` never produces one. Lookups in such an object would see the first entry, while `json.loads` keeps the last.
- Decimal.ParseInt: it models `int(s)` for an optional sign followed by ASCII digits. Python's `int` also strips surrounding whitespace and accepts underscores between digits and non-ASCII digits; those inputs are rejected here.
- AldrynConfig.Clean: the check `assert val > 0` is taken as always executed. Under `python -O` the assertion is removed and non-positive integers would pass.
- AldrynConfig.ToInt: parent values other than `None`, integers and text are not modelled. A float or a Decimal, for example, would be truncated by `int`.
- Models.Describe: it states when a description exists, not its text. The labels are the untranslated English strings, and lower-casing covers ASCII letters only.
- Django and CMS model fields, `Meta`, plugin relations, the translation of strings, and the text fields `upper_text` and `lower_text`, which play no part in the count.

=== FILE: aldryn_config.dfy ===
/**
  The add-on's configuration form: a positive-integer field for the cache
  duration, and the step that copies the form's data into the settings.
 */
module AldrynConfig {
  import opened Wrappers
  import opened Decimal

  /** A form value as the parent number field hands it on. */
  datatype Value = NoneValue | IntValue(i: int) | TextValue(s: string)

  /** The outcome of a field's `clean`: the cleaned value, or a `ValidationError` with its message. */
  datatype Cleaned = Valid(value: Value) | Invalid(message: string)

  const POSITIVE_INTEGER_MESSAGE := "Please provide a positive integer"

  /** The setting the form writes. */
  const CACHE_DURATION_SETTING := "ALDRYN_PYPI_STATS_CACHE_DURATION"

  /** `int(value)`: `None` when Python's `int` raises (`TypeError` or `ValueError`). */
  function ToInt(v: Value): (r: Option<int>)
    ensures v.IntValue? ==> r == Some(v.i)
    ensures v.NoneValue? ==> r.None?
    ensures v.TextValue? ==> r == ParseInt(v.s)
  {
    match v
    case NoneValue => None
    case IntValue(i) => Some(i)
    case TextValue(s) => ParseInt(s)
  }

  /**
    `PositiveIntegerField.clean`: the parent field's `clean` (a parameter, as
    its code is not part of this model) runs first and its error propagates;
    its value is then accepted unchanged exactly when it converts to an
    integer greater than 0, and any failure of that test becomes a
    `ValidationError` asking for a positive integer.
   */
  function Clean(parentClean: Value -> Cleaned, value: Value): (r: Cleaned)
    ensures parentClean(value).Invalid? ==> r == parentClean(value)
    ensures r.Valid? ==> r == parentClean(value)
    ensures parentClean(value).Valid? ==>
      (r.Valid? <==> ToInt(parentClean(value).value).Some? && ToInt(parentClean(value).value).value > 0)
    ensures parentClean(value).Valid? && r.Invalid? ==> r.message == POSITIVE_INTEGER_MESSAGE
  {
    match parentClean(value)
    case Invalid(message) => Invalid(message)
    case Valid(v) =>
      var converted := ToInt(v);
      if converted.Some? && converted.value > 0 then Valid(v)
      else Invalid(POSITIVE_INTEGER_MESSAGE)
  }

  /**
    A number written out in decimal passes the field (when the parent hands
    the text on unchanged) exactly when the number is positive.
   */
  lemma CleanAcceptsPositiveDecimal(parentClean: Value -> Cleaned, n: int)
    requires parentClean(TextValue(IntToString(n))) == Valid(TextValue(IntToString(n)))
    ensures Clean(parentClean, TextValue(IntToString(n))) ==
      if n > 0 then Valid(TextValue(IntToString(n))) else Invalid(POSITIVE_INTEGER_MESSAGE)
  {
    IntRoundTrip(n);
  }

  /** The settings dictionary the form writes into. */
  class Settings {
    var items: map<string, Value>

    constructor (items: map<string, Value>)
      ensures this.items == items
    {
      this.items := items;
    }
  }

  /**
    `Form.to_settings`: sets the cache-duration setting to the form's
    `cache_duration` (the empty string when absent), leaves every other
    setting alone and hands back the same dictionary.
   */
  method ToSettings(data: map<string, Value>, settings: Settings) returns (r: Settings)
    modifies settings
    ensures r == settings
    ensures CACHE_DURATION_SETTING in settings.items
    ensures settings.items[CACHE_DURATION_SETTING] ==
      if "cache_duration" in data then data["cache_duration"] else TextValue("")
    ensures settings.items.Keys == old(settings.items.Keys) + {CACHE_DURATION_SETTING}
    ensures forall k :: k in old(settings.items) && k != CACHE_DURATION_SETTING ==>
      settings.items[k] == old(settings.items[k])
  {
    var duration := if "cache_duration" in data then data["cache_duration"] else TextValue("");
    settings.items := settings.items[CACHE_DURATION_SETTING := duration];
    r := settings;
  }
}

=== FILE: decimal.dfy ===
/**
  Python's decimal conversions between integers and text: `str(n)` for an
  integer, `int(s)` for a string, `list(s)` and `"".join(parts)`.
 */
module Decimal {
  import opened Wrappers

  predicate IsDigit(c: char) {
    '0' <= c <= '9'
  }

  predicate AllDigits(s: string) {
    forall k :: 0 <= k < |s| ==> IsDigit(s[k])
  }

  function DigitChar(d: nat): (c: char)
    requires d < 10
    ensures IsDigit(c) && DigitValue(c) == d
  {
    (d + '0' as int) as char
  }

  function DigitValue(c: char): (d: nat)
    requires IsDigit(c)
  {
    c as int - '0' as int
  }

  /** `str(n)` for a non-negative integer: decimal digits without leading zeros. */
  function NatToString(n: nat): (s: string)
    ensures |s| >= 1 && AllDigits(s)
    ensures s[0] == '0' ==> n == 0
  {
    if n < 10 then [DigitChar(n)]
    else NatToString(n / 10) + [DigitChar(n % 10)]
  }

  /** `str(n)`: a minus sign in front of the digits of a negative number. */
  function IntToString(n: int): (s: string)
    ensures |s| >= 1
    ensures s[0] == '-' <==> n < 0
    ensures n >= 0 ==> AllDigits(s)
    ensures n == 0 ==> s == "0"
    ensures n < 0 ==> |s| >= 2 && AllDigits(s[1..])
    ensures n > 0 ==> s[0] != '0'
    ensures n < 0 ==> s[1] != '0'
  {
    if n < 0 then "-" + NatToString(-n) else NatToString(n)
  }

  /** The value of a string of decimal digits (leading zeros allowed, as `int` allows them). */
  function ParseDigits(s: string): (n: nat)
    requires AllDigits(s)
  {
    if s == [] then 0
    else ParseDigits(s[..|s| - 1]) * 10 + DigitValue(s[|s| - 1])
  }

  /** An optional `+` or `-` followed by one or more decimal digits. */
  predicate IntegerText(s: string) {
    if |s| >= 1 && (s[0] == '-' || s[0] == '+') then |s| >= 2 && AllDigits(s[1..])
    else |s| >= 1 && AllDigits(s)
  }

  /**
    `int(s)` for a string: an optional `+` or `-` followed by at least one
    decimal digit; anything else is rejected (Python raises `ValueError`).
   */
  function ParseInt(s: string): (r: Option<int>)
    ensures r.Some? <==> IntegerText(s)
    ensures r.Some? && s[0] == '-' ==> r.value + ParseDigits(s[1..]) == 0
    ensures r.Some? && s[0] == '+' ==> r.value == ParseDigits(s[1..])
    ensures AllDigits(s) && s != [] ==> r == Some(ParseDigits(s))
  {
    var negative := |s| >= 1 && s[0] == '-';
    var signed := |s| >= 1 && (s[0] == '-' || s[0] == '+');
    var digits := if signed then s[1..] else s;
    if digits == [] || !AllDigits(digits) then None
    else
      var magnitude: int := ParseDigits(digits);
      Some(if negative then -magnitude else magnitude)
  }

  lemma {:induction false} ParseNatToString(n: nat)
    ensures ParseDigits(NatToString(n)) == n
  {
    if n >= 10 {
      var s := NatToString(n);
      var front := NatToString(n / 10);
      assert s == front + [DigitChar(n % 10)];
      assert s[..|s| - 1] == front;
      ParseNatToString(n / 10);
    }
  }

  /** Reading back what `str` wrote gives the number: `int(str(n)) == n`. */
  lemma IntRoundTrip(n: int)
    ensures ParseInt(IntToString(n)) == Some(n)
  {
    var s := IntToString(n);
    if n < 0 {
      var digits := NatToString(-n);
      ParseNatToString(-n);
      assert s == "-" + digits && s[1..] == digits;
      assert IntegerText(s);
    } else {
      ParseNatToString(n);
      assert IntegerText(s);
    }
  }

  /** Distinct integers have distinct decimal renderings. */
  lemma IntToStringInjective(a: int, b: int)
    ensures IntToString(a) == IntToString(b) ==> a == b
  {
    IntRoundTrip(a);
    IntRoundTrip(b);
  }

  /** `list(s)`: the one-character strings of `s`, in order. */
  function Explode(s: string): (parts: seq<string>)
    ensures |parts| == |s|
    ensures forall k :: 0 <= k < |parts| ==> parts[k] == [s[k]]
    ensures Join(parts) == s
  {
    if s == [] then []
    else
      var rest := Explode(s[1..]);
      assert Join([[s[0]]] + rest) == [s[0]] + Join(rest) by {
        assert ([[s[0]]] + rest)[1..] == rest;
      }
      [[s[0]]] + rest
  }

  /** `"".join(parts)`. */
  function Join(parts: seq<string>): (s: string) {
    if parts == [] then [] else parts[0] + Join(parts[1..])
  }
}

=== FILE: models.dfy ===
/**
  The two plugin models: a PyPI package configuration (`PyPIStatsRepository`)
  whose payload is fetched through a shared cache, and a downloads plugin
  (`PyPIStatsDownloadsPluginModel`) that turns that payload into a count, its
  digits and a description.
 */
module Models {
  import opened Wrappers
  import opened PyJson
  import opened Decimal
  import opened Stats

  /** A package configuration: primary key, label and PyPI package name. */
  datatype Repository = Repository(pk: int, labelText: string, packageName: string)

  const PYPI_PREFIX := "https://pypi.python.org/pypi/"
  const JSON_SUFFIX := "/json"

  /** The URL of the package's JSON document on PyPI. */
  function GetJsonUrl(packageName: string): (url: string)
    ensures |url| == |PYPI_PREFIX| + |packageName| + |JSON_SUFFIX|
    ensures url[..|PYPI_PREFIX|] == PYPI_PREFIX
    ensures url[|PYPI_PREFIX|..|url| - |JSON_SUFFIX|] == packageName
    ensures url[|url| - |JSON_SUFFIX|..] == JSON_SUFFIX
  {
    PYPI_PREFIX + packageName + JSON_SUFFIX
  }

  /** Two packages never share a JSON URL. */
  lemma GetJsonUrlInjective(a: string, b: string)
    ensures GetJsonUrl(a) == GetJsonUrl(b) ==> a == b
  {
  }

  /** The reply to the GET request: status code and the body `r.json()` parses. */
  datatype Response = Response(status: int, body: Json)

  /** A cached value and the time-to-live, in seconds, it was stored with. */
  datatype Entry = Entry(value: Json, ttl: int)

  /**
    The process-wide cache store. An expired entry is simply absent: the
    store's own eviction is not modelled.
   */
  class Cache {
    var entries: map<string, Entry>

    /** `cache.get(key, default)`. */
    method Get(key: string, default: Json) returns (value: Json)
      ensures key in entries ==> value == entries[key].value
      ensures key !in entries ==> value == default
    {
      value := if key in entries then entries[key].value else default;
    }

    /** `cache.set(key, value, ttl)`. */
    method Set(key: string, value: Json, ttl: int)
      modifies this
      ensures entries == old(entries)[key := Entry(value, ttl)]
    {
      entries := entries[key := Entry(value, ttl)];
    }
  }

  /** What one call of the cache-or-fetch policy returns and leaves behind. */
  datatype Fetch = Fetch(data: Json, entries: map<string, Entry>, request: Option<string>)

  /**
    The cache-or-fetch policy on an abstract store: `request` is the URL
    fetched, if any. A forced call skips the cache; a falsy cached value is a
    miss; a non-200 reply yields `None`; every fetch stores its result under
    `key`, for twice the base duration when forced.
   */
  function Refresh(
    entries: map<string, Entry>, key: string, url: string,
    forceRefresh: bool, cacheDuration: int, response: Response): (f: Fetch)
    ensures f.request.Some? <==> forceRefresh || key !in entries || !Truthy(entries[key].value)
    ensures f.request.None? ==> f.data == entries[key].value && f.entries == entries
    ensures f.request.Some? ==> f.request.value == url
    ensures f.request.Some? && response.status == 200 ==> f.data == response.body
    ensures f.request.Some? && response.status != 200 ==> f.data == Null
    ensures f.request.Some? ==> key in f.entries && f.entries[key].value == f.data
    ensures f.request.Some? ==>
      f.entries[key].ttl == if forceRefresh then 2 * cacheDuration else cacheDuration
    ensures f.entries.Keys == entries.Keys + if f.request.Some? then {key} else {}
    ensures forall k :: k in entries && k != key ==> f.entries[k] == entries[k]
  {
    var cached := if forceRefresh || key !in entries then Null else entries[key].value;
    if Truthy(cached) then Fetch(cached, entries, None)
    else
      var data := if response.status == 200 then response.body else Null;
      var duration := if forceRefresh then cacheDuration * 2 else cacheDuration;
      Fetch(data, entries[key := Entry(data, duration)], Some(url))
  }

  /**
    A forced call does not depend on what the cache holds: from any two
    stores it fetches the same URL, returns the same payload and stores the
    same entry.
   */
  lemma ForcedRefreshIgnoresCache(
    before: map<string, Entry>, other: map<string, Entry>, key: string, url: string,
    cacheDuration: int, response: Response)
    ensures var f := Refresh(before, key, url, true, cacheDuration, response);
            var g := Refresh(other, key, url, true, cacheDuration, response);
            f.request == g.request == Some(url) && f.data == g.data &&
            key in f.entries && key in g.entries && f.entries[key] == g.entries[key]
  {
  }

  /**
    A fetch whose payload is truthy makes the next unforced call a hit: it
    returns the same payload, fetches nothing and changes no entry.
   */
  lemma RefreshThenHit(
    entries: map<string, Entry>, key: string, url: string, forceRefresh: bool,
    cacheDuration: int, first: Response, second: Response)
    requires Truthy(Refresh(entries, key, url, forceRefresh, cacheDuration, first).data)
    ensures var f := Refresh(entries, key, url, forceRefresh, cacheDuration, first);
            Refresh(f.entries, key, url, false, cacheDuration, second) == Fetch(f.data, f.entries, None)
  {
  }

  /**
    `get_data`: the repository's payload through the cache. `cacheKey` is the
    key derived from the primary key (Python's `hash` of `(pk,)`, formatted),
    `cacheDuration` the configured base time-to-live, `response` the reply the
    GET request would receive; `request` is the URL fetched, if any.
   */
  method GetData(
    repo: Repository, cache: Cache, cacheKey: int -> string, cacheDuration: int,
    forceRefresh: bool, response: Response)
    returns (data: Json, request: Option<string>)
    modifies cache
    ensures Fetch(data, cache.entries, request) ==
      Refresh(old(cache.entries), cacheKey(repo.pk), GetJsonUrl(repo.packageName),
              forceRefresh, cacheDuration, response)
  {
    var key := cacheKey(repo.pk);
    if forceRefresh {
      data := Null;
    } else {
      data := cache.Get(key, Null);
    }
    request := None;
    if !Truthy(data) {
      var url := GetJsonUrl(repo.packageName);
      request := Some(url);
      if response.status == 200 {
        data := response.body;
      } else {
        data := Null;
      }
      var duration := if forceRefresh then cacheDuration * 2 else cacheDuration;
      cache.Set(key, data, duration);
    }
  }

  /** The period codes of the downloads plugin and their labels, in order. */
  const CHOICES: seq<(string, string)> := [
    (ALL_TIME, "All Time"),
    ("last_month", "Last month"),
    ("last_week", "Last week"),
    ("last_day", "Yesterday")
  ]

  /** A downloads plugin instance; `package` is `None` when no package is selected. */
  datatype DownloadsPlugin = DownloadsPlugin(
    package: Option<Repository>,
    downloadsPeriod: string,
    baseCount: int)

  /** No package, or a package with an empty name: the count is 0 and nothing is fetched. */
  predicate NoPackage(plugin: DownloadsPlugin) {
    plugin.package.None? || plugin.package.value.packageName == []
  }

  /** The count derived from the payload the plugin's package returned. */
  function DownloadsFrom(plugin: DownloadsPlugin, data: Json): (r: Outcome<int>)
    ensures r.Raised? ==> r.exc == TypeError
    ensures plugin.downloadsPeriod == ALL_TIME && !Truthy(data) ==> r == Ok(plugin.baseCount)
  {
    match Statistics(data, plugin.downloadsPeriod)
    case Raised(e) => Raised(e)
    case Ok(stats) => Downloads(plugin.downloadsPeriod, plugin.baseCount, stats)
  }

  /**
    For any period but `all_time`, a payload without the period counter (a
    falsy payload, or a missing `info`, `downloads` or period key) makes the
    count `None + base_count`, which raises `TypeError`.
   */
  lemma MissingPeriodCounterRaises(plugin: DownloadsPlugin, data: Json)
    requires plugin.downloadsPeriod != ALL_TIME
    requires !Truthy(data) || (PeriodLookup(data, plugin.downloadsPeriod).Raised? &&
                               Caught(PeriodLookup(data, plugin.downloadsPeriod).exc))
    ensures DownloadsFrom(plugin, data) == Raised(TypeError)
  {
  }

  /**
    `get_downloads`: 0 without a package; otherwise the unforced cache-or-fetch
    of the package's payload, its statistic for the plugin's period, plus the
    base count.
   */
  method GetDownloads(
    plugin: DownloadsPlugin, cache: Cache, cacheKey: int -> string, cacheDuration: int,
    response: Response)
    returns (r: Outcome<int>)
    modifies cache
    ensures NoPackage(plugin) ==> r == Ok(0) && cache.entries == old(cache.entries)
    ensures !NoPackage(plugin) ==>
      var repo := plugin.package.value;
      var f := Refresh(old(cache.entries), cacheKey(repo.pk), GetJsonUrl(repo.packageName),
                       false, cacheDuration, response);
      cache.entries == f.entries && r == DownloadsFrom(plugin, f.data)
  {
    if NoPackage(plugin) {
      return Ok(0);
    }
    var data, _ := GetData(plugin.package.value, cache, cacheKey, cacheDuration, false, response);
    var stats := FetchStatistics(data, plugin.downloadsPeriod);
    if stats.Raised? {
      return Raised(stats.exc);
    }
    r := Downloads(plugin.downloadsPeriod, plugin.baseCount, stats.value);
  }

  /**
    `list(str(int(n)))` for the count `n`: one-character strings that join to
    its decimal rendering, read back as `n`; all digits for a non-negative count.
   */
  function Digits(n: int): (r: seq<string>)
    ensures forall k :: 0 <= k < |r| ==> |r[k]| == 1
    ensures Join(r) == IntToString(n)
    ensures ParseInt(Join(r)) == Some(n)
    ensures n >= 0 ==> forall k :: 0 <= k < |r| ==> IsDigit(r[k][0])
  {
    var text := IntToString(n);
    var parts := Explode(text);
    IntRoundTrip(n);
    assert n >= 0 ==> AllDigits(text);
    parts
  }

  /** `get_digits`: the digits of the count, or the exception computing it raised. */
  method GetDigits(
    plugin: DownloadsPlugin, cache: Cache, cacheKey: int -> string, cacheDuration: int,
    response: Response)
    returns (r: Outcome<seq<string>>)
    modifies cache
    ensures NoPackage(plugin) ==> r == Ok(["0"]) && cache.entries == old(cache.entries)
    ensures !NoPackage(plugin) ==>
      var repo := plugin.package.value;
      var f := Refresh(old(cache.entries), cacheKey(repo.pk), GetJsonUrl(repo.packageName),
                       false, cacheDuration, response);
      cache.entries == f.entries &&
      r == match DownloadsFrom(plugin, f.data)
           case Ok(n) => Ok(Digits(n))
           case Raised(e) => Raised(e)
  {
    var downloads := GetDownloads(plugin, cache, cacheKey, cacheDuration, response);
    assert IntToString(0) == "0" && "0"[1..] == [];
    assert Digits(0) == ["0"];
    if downloads.Raised? {
      return Raised(downloads.exc);
    }
    r := Ok(Digits(downloads.value));
  }

  /**
    `next(label for code, label in choices if code == period)`: the first
    matching label, or `StopIteration` when no choice has that code.
   */
  function ChoiceLabel(choices: seq<(string, string)>, period: string): (r: Outcome<string>)
    ensures r.Ok? <==> exists k :: 0 <= k < |choices| && choices[k].0 == period
    ensures r.Raised? ==> r.exc == StopIteration
    ensures r.Ok? ==> (period, r.value) in choices
    ensures r.Ok? ==> exists k :: 0 <= k < |choices| && choices[k] == (period, r.value) &&
                                 forall j :: 0 <= j < k ==> choices[j].0 != period
  {
    if choices == [] then Raised(StopIteration)
    else if choices[0].0 == period then Ok(choices[0].1)
    else
      var r := ChoiceLabel(choices[1..], period);
      assert forall k :: 0 < k < |choices| ==> choices[k] == choices[1..][k - 1];
      r
  }

  /** One character lower-cased: an ASCII capital becomes its small letter. */
  function LowerChar(c: char): (d: char)
    ensures !('A' <= d <= 'Z')
    ensures 'A' <= c <= 'Z' ==> d as int == c as int + 32
    ensures !('A' <= c <= 'Z') ==> d == c
  {
    if 'A' <= c <= 'Z' then (c as int + 32) as char else c
  }

  /** `str.lower()` on the ASCII letters the labels use. */
  function Lower(s: string): (r: string)
    ensures |r| == |s|
    ensures forall k :: 0 <= k < |s| ==> r[k] == LowerChar(s[k])
  {
    if s == [] then []
    else
      var rest := Lower(s[1..]);
      assert forall k :: 0 < k < |s| ==> s[k] == s[1..][k - 1];
      [LowerChar(s[0])] + rest
  }

  /**
    `__str__` of the downloads plugin: the lower-cased period label and the
    package name (or a placeholder without a package); a period outside the
    choices raises `StopIteration`.
   */
  function Describe(plugin: DownloadsPlugin): (r: Outcome<string>)
    ensures r.Ok? <==> plugin.downloadsPeriod in {ALL_TIME, "last_month", "last_week", "last_day"}
    ensures r.Raised? ==> r.exc == StopIteration
  {
    var name := if plugin.package.Some? then plugin.package.value.packageName else "[unknown package]";
    assert |CHOICES| == 4 && CHOICES[0].0 == ALL_TIME && CHOICES[1].0 == "last_month"
      && CHOICES[2].0 == "last_week" && CHOICES[3].0 == "last_day";
    match ChoiceLabel(CHOICES, plugin.downloadsPeriod)
    case Raised(e) => Raised(e)
    case Ok(human) => Ok("Download count for period: " + Lower(human) + " for package: " + name)
  }

  /**
    The worked example: one release with two variants of 3 and 2 downloads
    gives an all-time statistic of 5; with a base count of 10 the count is 15,
    shown as the digits "1" and "5".
   */
  lemma AllTimeExample()
    ensures var data := Object([("releases", Object([("1.0", Array([
                         Object([("downloads", Int(3))]), Object([("downloads", Int(2))])]))]))]);
            Statistics(data, ALL_TIME) == Ok((Null, 5)) &&
            Downloads(ALL_TIME, 10, (Null, 5)) == Ok(15) &&
            Digits(15) == ["1", "5"]
  {
    var data := Object([("releases", Object([("1.0", Array([
                  Object([("downloads", Int(3))]), Object([("downloads", Int(2))])]))]))]);
    assert Subscript(data, "info") == Raised(KeyError);
    assert NatToString(15) == "15";
  }
}

=== FILE: pyjson.dfy ===
/**
  The parsed JSON values the plugin works on, with the few pieces of Python
  semantics its statistics code relies on: truthiness, `x[key]`, `d.values()`,
  `for x in y` and `+` with an integer, including the exceptions they raise.
 */
module PyJson {

  /** The Python exceptions the modelled code raises or catches. */
  datatype Exc = KeyError | TypeError | AttributeError | StopIteration

  /** A Python computation that either yields a value or raises. */
  datatype Outcome<+T> = Ok(value: T) | Raised(exc: Exc)

  /**
    A value as `json.loads` produces it. `Null` is Python's `None`; an `Object`
    is a `dict`, its entries in insertion order. A dict from `json.loads` has
    distinct keys (`DistinctKeys`); an `Object` with a repeated key is outside
    the modelled domain (lookups would see the first entry, `json.loads` keeps
    the last).
   */
  datatype Json =
    | Null
    | Bool(b: bool)
    | Int(i: int)
    | Str(s: string)
    | Array(items: seq<Json>)
    | Object(entries: seq<(string, Json)>)

  /** Python truthiness: `None`, `False`, `0` and empty containers are false. */
  predicate Truthy(j: Json) {
    match j
    case Null => false
    case Bool(b) => b
    case Int(i) => i != 0
    case Str(s) => s != []
    case Array(items) => items != []
    case Object(entries) => entries != []
  }

  /** No key occurs twice, as in every Python dict. */
  predicate DistinctKeys(entries: seq<(string, Json)>) {
    forall a, b :: 0 <= a < b < |entries| ==> entries[a].0 != entries[b].0
  }

  predicate HasKey(entries: seq<(string, Json)>, key: string) {
    exists k :: 0 <= k < |entries| && entries[k].0 == key
  }

  /** Dictionary lookup: the entry stored under `key`, or `KeyError`. */
  function Find(entries: seq<(string, Json)>, key: string): (r: Outcome<Json>)
    ensures r.Raised? <==> !HasKey(entries, key)
    ensures r.Raised? ==> r.exc == KeyError
    ensures r.Ok? ==> (key, r.value) in entries
    ensures DistinctKeys(entries) ==> forall v :: (key, v) in entries ==> r == Ok(v)
  {
    if entries == [] then Raised(KeyError)
    else if entries[0].0 == key then Ok(entries[0].1)
    else
      var r := Find(entries[1..], key);
      assert forall k :: 0 < k < |entries| ==> entries[k] == entries[1..][k - 1];
      r
  }

  /**
    `j[key]` for a string key: a dict yields its entry or raises `KeyError`;
    every other value (list, str, int, bool, None) raises `TypeError`.
   */
  function Subscript(j: Json, key: string): (r: Outcome<Json>)
    ensures r == Raised(KeyError) <==> j.Object? && !HasKey(j.entries, key)
    ensures r == Raised(TypeError) <==> !j.Object?
    ensures r.Raised? ==> r.exc == KeyError || r.exc == TypeError
    ensures r.Ok? ==> j.Object? && (key, r.value) in j.entries
    ensures j.Object? && DistinctKeys(j.entries) ==> forall v :: (key, v) in j.entries ==> r == Ok(v)
  {
    if j.Object? then Find(j.entries, key) else Raised(TypeError)
  }

  /** The values of a dict, in insertion order. */
  function ValuesOf(entries: seq<(string, Json)>): (r: seq<Json>)
    ensures |r| == |entries|
    ensures forall k :: 0 <= k < |r| ==> r[k] == entries[k].1
  {
    seq(|entries|, k requires 0 <= k < |entries| => entries[k].1)
  }

  /** `j.values()`: only a dict has it; anything else raises `AttributeError`. */
  function Values(j: Json): (r: Outcome<seq<Json>>)
    ensures r.Ok? <==> j.Object?
    ensures r.Raised? ==> r.exc == AttributeError
    ensures r.Ok? ==> r.value == ValuesOf(j.entries)
  {
    if j.Object? then Ok(ValuesOf(j.entries)) else Raised(AttributeError)
  }

  /**
    The elements `for x in j` visits: a list its items, a dict its keys, a
    string its one-character strings; a number, a bool or `None` raises
    `TypeError` (not iterable).
   */
  function Iter(j: Json): (r: Outcome<seq<Json>>)
    ensures r.Raised? <==> j.Null? || j.Bool? || j.Int?
    ensures r.Raised? ==> r.exc == TypeError
    ensures j.Array? ==> r == Ok(j.items)
    ensures j.Object? ==> |r.value| == |j.entries|
    ensures j.Str? ==> |r.value| == |j.s|
  {
    match j
    case Array(items) => Ok(items)
    case Object(entries) =>
      Ok(seq(|entries|, k requires 0 <= k < |entries| => Str(entries[k].0)))
    case Str(s) => Ok(seq(|s|, k requires 0 <= k < |s| => Str([s[k]])))
    case _ => Raised(TypeError)
  }

  /** Iterating a dict visits its keys in insertion order, a string its characters in order. */
  lemma IterElements(j: Json, k: nat)
    requires j.Object? ==> k < |j.entries|
    requires j.Str? ==> k < |j.s|
    ensures j.Object? ==> Iter(j).value[k] == Str(j.entries[k].0)
    ensures j.Str? ==> Iter(j).value[k] == Str([j.s[k]])
  {
  }

  /**
    `j + n` (or `n + j`) for an integer `n`: an int adds, a bool adds as 0 or 1,
    anything else raises `TypeError`.
   */
  function AddInt(j: Json, n: int): (r: Outcome<int>)
    ensures r.Ok? <==> j.Int? || j.Bool?
    ensures j.Int? ==> r == Ok(j.i + n)
    ensures j.Bool? ==> r == Ok(n + if j.b then 1 else 0)
    ensures r.Raised? ==> r.exc == TypeError
  {
    match j
    case Int(i) => Ok(i + n)
    case Bool(b) => Ok(if b then n + 1 else n)
    case _ => Raised(TypeError)
  }
}

=== FILE: stats.dfy ===
/**
  The statistics a downloads plugin derives from a package's PyPI payload:
  the period counter `info.downloads.<period>`, the release total summed
  over `releases.*[].downloads`, and the count shown once the plugin's base
  count is added.
 */
module Stats {
  import opened PyJson

  /** The period code whose statistic is the release total. */
  const ALL_TIME := "all_time"

  /** The exceptions the two `try` blocks of the statistics code catch; `TypeError` escapes. */
  predicate Caught(e: Exc) {
    e == KeyError || e == AttributeError
  }

  /** `o[key]` after a lookup that may already have raised. */
  function Then(o: Outcome<Json>, key: string): (r: Outcome<Json>) {
    if o.Raised? then o else Subscript(o.value, key)
  }

  /** The raw lookup `data['info']['downloads'][period]`, before the `except`. */
  function PeriodLookup(data: Json, period: string): (r: Outcome<Json>)
    ensures r.Raised? ==> r.exc == KeyError || r.exc == TypeError
    ensures !data.Object? ==> r == Raised(TypeError)
  {
    Then(Then(Subscript(data, "info"), "downloads"), period)
  }

  /**
    `time_period_stats`: `data['info']['downloads'][period]`, or `None` when
    a key is missing; a `TypeError` on the way (a list or a number where a
    dict belongs) escapes.
   */
  function PeriodStat(data: Json, period: string): (r: Outcome<Json>)
    ensures PeriodLookup(data, period).Ok? ==> r == PeriodLookup(data, period)
    ensures PeriodLookup(data, period).Raised? && Caught(PeriodLookup(data, period).exc) ==> r == Ok(Null)
    ensures PeriodLookup(data, period).Raised? && !Caught(PeriodLookup(data, period).exc) ==>
      r == PeriodLookup(data, period)
    ensures r.Raised? ==> r.exc == TypeError
  {
    var v := PeriodLookup(data, period);
    if v.Ok? then v
    else if Caught(v.exc) then Ok(Null)
    else v
  }

  /** Where the release loop stands: still running, stopped by a caught exception, or failed. */
  datatype Sum = Running(total: int) | Stopped(total: int) | Failed(exc: Exc)

  /** The loop is left by `exc` with `total` accumulated so far. */
  function Abort(total: int, exc: Exc): (s: Sum)
    ensures s.Stopped? <==> Caught(exc)
    ensures s.Stopped? ==> s.total == total
    ensures !Caught(exc) ==> s == Failed(exc)
  {
    if Caught(exc) then Stopped(total) else Failed(exc)
  }

  /** The inner loop `for variation in release: release_stats += variation['downloads']`, from `total` on. */
  function SumVariants(total: int, variants: seq<Json>): (s: Sum)
    ensures s.Failed? ==> s.exc == TypeError
    decreases |variants|
  {
    if variants == [] then Running(total)
    else match Subscript(variants[0], "downloads")
      case Raised(e) => Abort(total, e)
      case Ok(d) =>
        match AddInt(d, total)
        case Raised(e) => Abort(total, e)
        case Ok(t) => SumVariants(t, variants[1..])
  }

  /** The outer loop `for release in data['releases'].values(): …`, from `total` on. */
  function SumReleases(total: int, releases: seq<Json>): (s: Sum)
    ensures s.Failed? ==> s.exc == TypeError
    decreases |releases|
  {
    if releases == [] then Running(total)
    else match Iter(releases[0])
      case Raised(e) => Abort(total, e)
      case Ok(variants) =>
        var s := SumVariants(total, variants);
        if s.Running? then SumReleases(s.total, releases[1..]) else s
  }

  /**
    `release_stats` after the second `try` block: the loops' total, kept also
    when a caught exception stopped them part-way; 0 when `releases` is
    missing or is not a dict.
   */
  function ReleaseStats(data: Json): (r: Outcome<int>)
    ensures r.Raised? ==> r.exc == TypeError
  {
    var releases := Subscript(data, "releases");
    var values := if releases.Raised? then Raised(releases.exc) else Values(releases.value);
    if values.Raised? then
      if Caught(values.exc) then Ok(0) else Raised(values.exc)
    else
      match SumReleases(0, values.value)
      case Running(t) => Ok(t)
      case Stopped(t) => Ok(t)
      case Failed(e) => Raised(e)
  }

  /** The pair `(time_period_stats, release_stats)` computed from the payload `data`. */
  function Statistics(data: Json, period: string): (r: Outcome<(Json, int)>)
    ensures r.Raised? ==> r.exc == TypeError
  {
    if !Truthy(data) then Ok((Null, 0))
    else
      match PeriodStat(data, period)
      case Raised(e) => Raised(e)
      case Ok(t) =>
        match ReleaseStats(data)
        case Raised(e) => Raised(e)
        case Ok(n) => Ok((t, n))
  }

  /**
    The body of the statistics fetch once the payload is at hand: the period
    lookup, then the nested accumulation over releases and their variants,
    leaving both loops at the first exception.
   */
  method FetchStatistics(data: Json, period: string) returns (r: Outcome<(Json, int)>)
    ensures r == Statistics(data, period)
  {
    var timePeriodStats := Null;
    var releaseStats := 0;
    if !Truthy(data) {
      return Ok((timePeriodStats, releaseStats));
    }
    var lookup := PeriodStat(data, period);
    if lookup.Raised? {
      return Raised(lookup.exc);
    }
    timePeriodStats := lookup.value;

    var releases := Subscript(data, "releases");
    var values := if releases.Raised? then Raised(releases.exc) else Values(releases.value);
    if values.Raised? {
      if Caught(values.exc) {
        return Ok((timePeriodStats, releaseStats));
      }
      return Raised(values.exc);
    }
    var rs := values.value;
    var i := 0;
    while i < |rs|
      invariant 0 <= i <= |rs|
      invariant SumReleases(0, rs) == SumReleases(releaseStats, rs[i..])
    {
      ghost var start := releaseStats;
      assert rs[i..][0] == rs[i] && rs[i..][1..] == rs[i + 1..];
      var iteration := Iter(rs[i]);
      if iteration.Raised? {
        return Raised(iteration.exc);
      }
      var variants := iteration.value;
      var j := 0;
      while j < |variants|
        invariant 0 <= j <= |variants|
        invariant SumVariants(start, variants) == SumVariants(releaseStats, variants[j..])
      {
        assert variants[j..][0] == variants[j] && variants[j..][1..] == variants[j + 1..];
        var downloads := Subscript(variants[j], "downloads");
        var sum := if downloads.Raised? then Raised(downloads.exc) else AddInt(downloads.value, releaseStats);
        if sum.Raised? {
          if Caught(sum.exc) {
            return Ok((timePeriodStats, releaseStats));
          }
          return Raised(sum.exc);
        }
        releaseStats := sum.value;
        j := j + 1;
      }
      i := i + 1;
    }
    r := Ok((timePeriodStats, releaseStats));
  }

  /**
    `stats + base_count`: the release total for `all_time`, the period
    counter for any other period; `None + int` (the counter was missing)
    raises `TypeError`.
   */
  function Downloads(period: string, baseCount: int, stats: (Json, int)): (r: Outcome<int>)
    ensures period == ALL_TIME ==> r == Ok(stats.1 + baseCount)
    ensures period != ALL_TIME && stats.0.Int? ==> r == Ok(stats.0.i + baseCount)
    ensures period != ALL_TIME && stats.0.Bool? ==> r == Ok(baseCount + if stats.0.b then 1 else 0)
    ensures period != ALL_TIME && !(stats.0.Int? || stats.0.Bool?) ==> r == Raised(TypeError)
    ensures period != ALL_TIME && stats.0 == Null ==> r == Raised(TypeError)
  {
    if period == ALL_TIME then Ok(stats.1 + baseCount) else AddInt(stats.0, baseCount)
  }

  // Reference definitions for the release total, without accumulator or exceptions.

  /** A variant with an integer `downloads` counter. */
  predicate Counted(variant: Json) {
    var d := Subscript(variant, "downloads");
    d.Ok? && d.value.Int?
  }

  function Count(variant: Json): (n: int)
    requires Counted(variant)
  {
    Subscript(variant, "downloads").value.i
  }

  predicate AllCounted(variants: seq<Json>) {
    forall k :: 0 <= k < |variants| ==> Counted(variants[k])
  }

  /** The sum of the variants' counters. */
  function VariantTotal(variants: seq<Json>): (n: int)
    requires AllCounted(variants)
  {
    if variants == [] then 0 else Count(variants[0]) + VariantTotal(variants[1..])
  }

  /** A release that is a list of counted variants. */
  predicate Complete(release: Json) {
    release.Array? && AllCounted(release.items)
  }

  predicate AllComplete(releases: seq<Json>) {
    forall k :: 0 <= k < |releases| ==> Complete(releases[k])
  }

  /** The sum of the counters of every variant of every release. */
  function ReleaseTotal(releases: seq<Json>): (n: int)
    requires AllComplete(releases)
  {
    if releases == [] then 0 else VariantTotal(releases[0].items) + ReleaseTotal(releases[1..])
  }

  lemma {:induction false} SumVariantsComplete(total: int, variants: seq<Json>)
    requires AllCounted(variants)
    ensures SumVariants(total, variants) == Running(total + VariantTotal(variants))
    decreases |variants|
  {
    if variants != [] {
      assert Counted(variants[0]);
      assert AllCounted(variants[1..]) by {
        forall k | 0 <= k < |variants[1..]| ensures Counted(variants[1..][k]) {
          assert variants[1..][k] == variants[k + 1];
        }
      }
      SumVariantsComplete(total + Count(variants[0]), variants[1..]);
    }
  }

  lemma {:induction false} SumReleasesComplete(total: int, releases: seq<Json>)
    requires AllComplete(releases)
    ensures SumReleases(total, releases) == Running(total + ReleaseTotal(releases))
    decreases |releases|
  {
    if releases != [] {
      assert Complete(releases[0]);
      assert AllComplete(releases[1..]) by {
        forall k | 0 <= k < |releases[1..]| ensures Complete(releases[1..][k]) {
          assert releases[1..][k] == releases[k + 1];
        }
      }
      SumVariantsComplete(total, releases[0].items);
      SumReleasesComplete(total + VariantTotal(releases[0].items), releases[1..]);
    }
  }

  /** The `releases` dict of a payload, when the payload has one. */
  predicate HasReleases(data: Json) {
    var releases := Subscript(data, "releases");
    releases.Ok? && releases.value.Object?
  }

  function ReleaseList(data: Json): (releases: seq<Json>)
    requires HasReleases(data)
  {
    ValuesOf(Subscript(data, "releases").value.entries)
  }

  /**
    When every release is a list of variants that all carry an integer
    `downloads`, the release statistic is the sum of all those counters.
   */
  lemma AllTimeIsReleaseTotal(data: Json)
    requires HasReleases(data) && AllComplete(ReleaseList(data))
    ensures ReleaseStats(data) == Ok(ReleaseTotal(ReleaseList(data)))
  {
    SumReleasesComplete(0, ReleaseList(data));
  }

  /**
    A variant that lacks `downloads` ends the loop with the sum of the
    variants before it.
   */
  lemma {:induction false} SumVariantsStopsAtMissing(total: int, variants: seq<Json>, k: nat)
    requires k < |variants| && AllCounted(variants[..k])
    requires Subscript(variants[k], "downloads") == Raised(KeyError)
    ensures SumVariants(total, variants) == Stopped(total + VariantTotal(variants[..k]))
    decreases k
  {
    if k > 0 {
      assert variants[..k][0] == variants[0] && variants[..k][1..] == variants[1..][..k - 1];
      assert Counted(variants[..k][0]);
      var rest := variants[1..][..k - 1];
      assert AllCounted(rest) by {
        forall m | 0 <= m < k - 1 ensures Counted(rest[m]) {
          assert rest[m] == variants[..k][m + 1];
        }
      }
      SumVariantsStopsAtMissing(total + Count(variants[0]), variants[1..], k - 1);
    }
  }

  /** The first release of complete leading releases is complete, and so are the ones after it. */
  lemma CompletePrefixTail(releases: seq<Json>, i: nat)
    requires 0 < i <= |releases| && AllComplete(releases[..i])
    ensures Complete(releases[0]) && AllComplete(releases[1..][..i - 1])
  {
    assert releases[..i][0] == releases[0];
    var rest := releases[1..][..i - 1];
    forall m | 0 <= m < i - 1 ensures Complete(rest[m]) {
      assert rest[m] == releases[..i][m + 1];
    }
  }

  lemma {:induction false} SumReleasesPrefix(total: int, releases: seq<Json>, i: nat)
    requires i <= |releases| && AllComplete(releases[..i])
    ensures SumReleases(total, releases) == SumReleases(total + ReleaseTotal(releases[..i]), releases[i..])
    decreases i
  {
    if i > 0 {
      CompletePrefixTail(releases, i);
      var items := releases[0].items;
      assert releases[..i][0] == releases[0] && releases[..i][1..] == releases[1..][..i - 1];
      assert releases[1..][i - 1..] == releases[i..];
      assert ReleaseTotal(releases[..i]) == VariantTotal(items) + ReleaseTotal(releases[1..][..i - 1]);
      SumVariantsComplete(total, items);
      assert Iter(releases[0]) == Ok(items);
      assert SumReleases(total, releases) == SumReleases(total + VariantTotal(items), releases[1..]);
      SumReleasesPrefix(total + VariantTotal(items), releases[1..], i - 1);
    }
  }

  /** A release whose variants stop the inner loop stops the outer loop with the same total. */
  lemma ReleaseStopsLoop(total: int, releases: seq<Json>, t: int)
    requires releases != [] && releases[0].Array?
    requires SumVariants(total, releases[0].items) == Stopped(t)
    ensures SumReleases(total, releases) == Stopped(t)
  {
    assert Iter(releases[0]) == Ok(releases[0].items);
  }

  /** A total with which the loops stopped is the release statistic. */
  lemma StoppedIsReleaseStats(data: Json)
    requires HasReleases(data) && SumReleases(0, ReleaseList(data)).Stopped?
    ensures ReleaseStats(data) == Ok(SumReleases(0, ReleaseList(data)).total)
  {
    assert Values(Subscript(data, "releases").value) == Ok(ReleaseList(data));
  }

  /**
    A variant without `downloads` at position `k` of release `i`, after
    complete releases and counted variants, stops the outer loop with
    everything counted before it.
   */
  lemma SumReleasesStopsAtMissing(rs: seq<Json>, i: nat, k: nat)
    requires i < |rs| && AllComplete(rs[..i])
    requires rs[i].Array? && k < |rs[i].items| && AllCounted(rs[i].items[..k])
    requires Subscript(rs[i].items[k], "downloads") == Raised(KeyError)
    ensures SumReleases(0, rs) == Stopped(ReleaseTotal(rs[..i]) + VariantTotal(rs[i].items[..k]))
  {
    var before := ReleaseTotal(rs[..i]);
    SumReleasesPrefix(0, rs, i);
    SumVariantsStopsAtMissing(before, rs[i].items, k);
    assert rs[i..][0] == rs[i];
    ReleaseStopsLoop(before, rs[i..], before + VariantTotal(rs[i].items[..k]));
  }

  /**
    The partial-sum quirk: when variant `k` of release `i` lacks `downloads`
    and everything before it is counted, the `KeyError` is swallowed and the
    release statistic is the sum of the counters visited before it.
   */
  lemma PartialSumRetained(data: Json, i: nat, k: nat)
    requires HasReleases(data) && i < |ReleaseList(data)|
    requires AllComplete(ReleaseList(data)[..i])
    requires ReleaseList(data)[i].Array? && k < |ReleaseList(data)[i].items|
    requires AllCounted(ReleaseList(data)[i].items[..k])
    requires Subscript(ReleaseList(data)[i].items[k], "downloads") == Raised(KeyError)
    ensures ReleaseStats(data) ==
      Ok(ReleaseTotal(ReleaseList(data)[..i]) + VariantTotal(ReleaseList(data)[i].items[..k]))
  {
    SumReleasesStopsAtMissing(ReleaseList(data), i, k);
    StoppedIsReleaseStats(data);
  }

  /**
    A variant whose `downloads` cannot be added to the total: the variant is
    not a dict, or its counter is neither an integer nor a boolean.
   */
  predicate BadVariant(variant: Json) {
    var d := Subscript(variant, "downloads");
    d == Raised(TypeError) || (d.Ok? && !(d.value.Int? || d.value.Bool?))
  }

  /** A bad variant fails the inner loop with `TypeError`, which no `except` catches. */
  lemma {:induction false} SumVariantsFailsAtBad(total: int, variants: seq<Json>, k: nat)
    requires k < |variants| && AllCounted(variants[..k])
    requires BadVariant(variants[k])
    ensures SumVariants(total, variants) == Failed(TypeError)
    decreases k
  {
    if k > 0 {
      assert variants[..k][0] == variants[0] && variants[..k][1..] == variants[1..][..k - 1];
      assert Counted(variants[..k][0]);
      var rest := variants[1..][..k - 1];
      assert AllCounted(rest) by {
        forall m | 0 <= m < k - 1 ensures Counted(rest[m]) {
          assert rest[m] == variants[..k][m + 1];
        }
      }
      SumVariantsFailsAtBad(total + Count(variants[0]), variants[1..], k - 1);
    }
  }

  /** A total the loops failed with is the exception the `try` block lets out. */
  lemma FailedIsReleaseStats(data: Json, e: Exc)
    requires HasReleases(data) && SumReleases(0, ReleaseList(data)) == Failed(e)
    ensures ReleaseStats(data) == Raised(e)
  {
    assert Values(Subscript(data, "releases").value) == Ok(ReleaseList(data));
  }

  /**
    A release that cannot be iterated (a number, a boolean or `None`), after
    complete releases, makes the release statistic raise `TypeError`.
   */
  lemma NonIterableReleaseRaises(data: Json, i: nat)
    requires HasReleases(data) && i < |ReleaseList(data)|
    requires AllComplete(ReleaseList(data)[..i])
    requires Iter(ReleaseList(data)[i]).Raised?
    ensures ReleaseStats(data) == Raised(TypeError)
  {
    var rs := ReleaseList(data);
    SumReleasesPrefix(0, rs, i);
    assert rs[i..][0] == rs[i];
    assert SumReleases(ReleaseTotal(rs[..i]), rs[i..]) == Failed(TypeError);
    FailedIsReleaseStats(data, TypeError);
  }

  /**
    A bad variant `k` of release `i`, after counted variants and complete
    releases, makes the release statistic raise `TypeError`.
   */
  lemma BadCounterRaises(data: Json, i: nat, k: nat)
    requires HasReleases(data) && i < |ReleaseList(data)|
    requires AllComplete(ReleaseList(data)[..i])
    requires ReleaseList(data)[i].Array? && k < |ReleaseList(data)[i].items|
    requires AllCounted(ReleaseList(data)[i].items[..k])
    requires BadVariant(ReleaseList(data)[i].items[k])
    ensures ReleaseStats(data) == Raised(TypeError)
  {
    var rs := ReleaseList(data);
    var before := ReleaseTotal(rs[..i]);
    SumReleasesPrefix(0, rs, i);
    SumVariantsFailsAtBad(before, rs[i].items, k);
    assert rs[i..][0] == rs[i];
    assert Iter(rs[i]) == Ok(rs[i].items);
    assert SumReleases(before, rs[i..]) == Failed(TypeError);
    FailedIsReleaseStats(data, TypeError);
  }

  /**
    A falsy payload gives `(None, 0)`; a payload without a usable `releases`
    dict gives a release statistic of 0.
   */
  lemma NoDataIsZero(data: Json, period: string)
    ensures !Truthy(data) ==> Statistics(data, period) == Ok((Null, 0))
    ensures data.Object? && !HasReleases(data) ==> ReleaseStats(data) == Ok(0)
  {
  }

  /**
    The period statistic is read from `info.downloads` alone: when that
    counter is present it is the result, whatever `releases` holds.
   */
  lemma PeriodStatReadsInfo(data: Json, period: string, downloads: Json)
    requires Subscript(data, "info").Ok?
    requires Subscript(data, "info").value.Object?
    requires Subscript(Subscript(data, "info").value, "downloads") == Ok(downloads)
    requires Subscript(downloads, period).Ok?
    ensures PeriodStat(data, period) == Subscript(downloads, period)
  {
  }
}

=== FILE: wrappers.dfy ===
/** The conventional optional-value datatype. */
module Wrappers {

  datatype Option<+T> = None | Some(value: T)
}
